=== FILE: README.md ===
# Recall scorer, modelled in Dafny

A model of the recall scorer of `sae_auto_interp` (`RecallScorer` and
`Sample`). The scorer asks a language-model judge whether an explanation of
a sparse-autoencoder feature predicts which texts activate that feature.

It works in four steps:

- **Assembly.** It turns the non-activating ("incorrect") examples and the
  activating examples, which come grouped by quantile, into labelled
  samples.
- **Batching.** It cuts the samples into batches.
- **Rendering and querying.** It renders each batch as numbered example
  lines and sends one judge request per batch.
- **Reading and flattening.** It reads back the answers, either a
  structured `example_i` mapping or a free-text answer ending in a digit.
  It then flattens the judged batches into plain records.

The model is functional:

- A `Sample` is an immutable datatype, and its `predicted` field is an
  `Option<bool>`.
- Every exception the scorer's own code raises on these paths is a
  `ScoreError` inside a `Result`. Exceptions raised inside the backend
  call are not modelled (see "## Left out").
- The tokenizer's `decode` is a function parameter.
- The judge backend is a function from `Request` to `Response`. The request
  holds the explanation, the example block, the batched flag and the batch
  length the response schema is built for. The response is either
  `Structured(map<string, int>)` or `Text(string)`.
- The concurrent fan-out over batches (`asyncio.gather`) is a sequential map
  in batch order. `gather` returns results in task order, so the results
  are the same.

Modules:

- `Wrappers`: `Option` and `Result`.
- `Errors`: `ScoreError`, the exceptions of `_prepare` and `query`.
- `Seqs`: `Flatten`, and `Regroup`, its inverse for a known shape.
- `Samples`: `Sample`, `_prepare_samples`, `default`, and the record form
  of a sample.
- `Assembly`: the flat sample list that `_prepare` builds.
- `Batching`: the cut into batches of `batch_size`.
- `Numerals`: `str(int)` for the indices, and its inverse.
- `Rendering`: the example lines and the `"\n".join` of `build_prompt`,
  `str.split` as the inverse of that join, and the `example_i` keys.
- `Judging`: the `query` request and the parse of its answer.
- `Scorer`: `_prepare`, `process_batches` and `__call__`, plus the worked
  scenarios.

Three behaviours of the code shape the model:

- **A malformed answer fails the whole call.** The exception raised inside
  `query` propagates through `asyncio.gather`, so one bad batch aborts the
  scoring call and no batch's records are returned.
  `Scorer.ScoreFailsIffBatchFails` states exactly that.
- **`batch_size` is never checked.** The comprehension of `_prepare` passes
  it straight to `range` as the step:
  - `range(0, n, 0)` raises `ValueError`, modelled as `ZeroBatchSize`;
  - a negative step gives no batches at all, so the result is empty and
    the judge is never asked.
- **An empty batch.** A batch can reach `query` empty only through a direct
  call. The code then reads the answer before it indexes `batch[0]`, so a
  bad answer is reported first and `IndexError` second. The model keeps
  that order.

## Model

| member | source | states |
|---|---|---|
| `Samples.PrepareSamples` | sae_auto_interp/scorers/recall/recall.py:20-39 | one sample per example, in input order, with the decoded text, the given quantile and ground truth, and no prediction |
| `Samples.Default` | sae_auto_interp/scorers/recall/recall.py:41-47 | the record has exactly the four keys; reading it back gives the sample again; `predicted` is `None` exactly when the sample has no prediction |
| `Samples.Defaults` | sae_auto_interp/scorers/recall/recall.py:128-130 | one record per sample; record `k` is exactly `default()` of sample `k`: the four keys, and it reads back as sample `k` |
| `Assembly.Activating` | sae_auto_interp/scorers/recall/recall.py:96-105 | one sample per activating example; every sample is ground truth, has a quantile between 1 and the number of groups, and has no prediction |
| `Assembly.Assemble` | sae_auto_interp/scorers/recall/recall.py:89-105 | length is `len(incorrect)` plus the total size of the groups; the first `len(incorrect)` samples are the non-activating examples in order, with quantile -1; a sample is ground truth exactly when it comes after them; quantile -1 exactly when not ground truth; nothing is predicted yet |
| `Assembly.GroupSamples` | sae_auto_interp/scorers/recall/recall.py:96-105 | group `i` on its own: as many samples as the group has examples, labelled `i + 1`; concatenated in enumeration order the groups give exactly the samples the `extend` loop builds |
| `Assembly.GroupSamplesIndex` | sae_auto_interp/scorers/recall/recall.py:96-105 | in the concatenated per-group samples, example `j` of group `i` comes right after all examples of earlier groups |
| `Assembly.ActivatingIndex` | sae_auto_interp/scorers/recall/recall.py:96-105 | example `j` of group `i` becomes the sample at position (examples in earlier groups) + `j`, with quantile `i + 1` and ground truth |
| `Assembly.AssembleIndex` | sae_auto_interp/scorers/recall/recall.py:89-105 | example `j` of activating group `i` sits at position `len(incorrect)` + (examples in earlier groups) + `j` and carries its decoded text and label `i + 1`: groups keep enumeration order and examples keep their order within a group |
| `Assembly.ActivatingSorted` | sae_auto_interp/scorers/recall/recall.py:96-105 | the activating samples' quantiles never decrease along the list |
| `Assembly.AssembleSorted` | sae_auto_interp/scorers/recall/recall.py:89-105 | across the whole assembled list quantiles never decrease, so all non-activating samples precede all activating ones |
| `Batching.Slice` | sae_auto_interp/scorers/recall/recall.py:108 | `samples[i:i + n]` has `min(n, len - i)` elements: the slice stops at the end of the list |
| `Batching.ChunkFrom` | sae_auto_interp/scorers/recall/recall.py:107-110 | each chunk from `start` on holds 1 to `n` samples and all but the last hold exactly `n`; there are none exactly when `start` is at or past the end |
| `Batching.ChunkFromFlatten` | sae_auto_interp/scorers/recall/recall.py:107-110 | the chunks from `start` on concatenate back to the list from `start` on: no sample is dropped, repeated or moved |
| `Batching.Chunk` | sae_auto_interp/scorers/recall/recall.py:107-110 | concatenating the batches gives back the list; every batch holds 1 to `n` samples, all but the last exactly `n`; an empty list gives no batches and only an empty list does |
| `Batching.ChunkFromIndex` | sae_auto_interp/scorers/recall/recall.py:107-110 | chunk `j` from `start` is the slice starting `j` steps of `n` after `start` |
| `Batching.NumChunksBounds` | sae_auto_interp/scorers/recall/recall.py:109 | the number of steps of `n` that `range` takes over a positive length `m` is the ceiling of `m / n` |
| `Batching.ChunkFromLength` | sae_auto_interp/scorers/recall/recall.py:109 | the number of chunks from `start` is the number of `range` steps over the remaining length |
| `Batching.ChunkIndex` | sae_auto_interp/scorers/recall/recall.py:107-110 | batch `j` is `samples[j*n : j*n + n]`, clipped at the end |
| `Batching.ChunkCount` | sae_auto_interp/scorers/recall/recall.py:107-110 | for a non-empty list the batch count is the least `b` with `b * n >= len` |
| `Numerals.Numeral` | sae_auto_interp/scorers/recall/recall.py:140 | the decimal text of an index is non-empty and all digits, and starts with `0` only for zero |
| `Numerals.ParseNumeral` | sae_auto_interp/scorers/recall/recall.py:140 | reading the decimal text back gives the index again |
| `Numerals.NumeralInjective` | sae_auto_interp/scorers/recall/recall.py:173 | distinct indices have distinct decimal texts |
| `Rendering.ExampleLine` | sae_auto_interp/scorers/recall/recall.py:140 | a reader of the line finds exactly the decimal text of `i` (no padding) between `Example ` and `: `, and exactly the text after it; the index read back is `i`; the line ends with the text and has no newline when the text has none |
| `Rendering.ExampleLineReadBack` | sae_auto_interp/scorers/recall/recall.py:140 | a line on which a reader finds the decimal text of `i` and the text `t` is exactly the line rendered for `i` and `t`, so the reading determines the line |
| `Rendering.ExampleKeyIndex` | sae_auto_interp/scorers/recall/recall.py:173 | the key `example_i` reads back the index `i` |
| `Rendering.ExampleLines` | sae_auto_interp/scorers/recall/recall.py:139-142 | one line per sample of the batch; line `i` is sample `i` rendered by `ExampleLine`, so it reads back the index `i` and ends with the text of sample `i` |
| `Rendering.Join` | sae_auto_interp/scorers/recall/recall.py:139 | the `"\n"` join of one or more newline-free lines splits at newlines back into exactly those lines |
| `Rendering.ExamplesBlock` | sae_auto_interp/scorers/recall/recall.py:139-142 | an empty batch gives the empty block; the block of a non-empty batch with newline-free texts splits back into exactly its example lines, one per sample, in batch order |
| `Rendering.IndexAlignment` | sae_auto_interp/scorers/recall/recall.py:139-173 | the index read back from the prefix of line `Example i: ...` and the index read back from key `example_i` are both `i`, so rendered positions and answer keys use the same numbering |
| `Rendering.ExampleKeyInjective` | sae_auto_interp/scorers/recall/recall.py:172-173 | two positions share an `example_i` key only when they are equal, so no answer field is read for two samples |
| `Judging.QueryRequest` | sae_auto_interp/scorers/recall/recall.py:156-164 | the request is batched exactly when the batch has more than one sample; its schema size is the batch length; it carries the explanation; for a non-empty batch whose texts hold no newline, its example block splits back into the batch's example lines |
| `Judging.MarkFrom` | sae_auto_interp/scorers/recall/recall.py:172-173 | from position `i` on, success exactly when every key from `example_i` on is present; then the samples before `i` are unchanged and sample `k` from `i` on gets prediction `value == 1`; otherwise the error names the first missing key |
| `Judging.ParseStructured` | sae_auto_interp/scorers/recall/recall.py:165-173 | success exactly when all keys `example_0`..`example_{n-1}` are present; sample `k` then only gains prediction `fields["example_k"] == 1`; otherwise the error is the first missing key, and no prediction is defaulted |
| `Judging.ParseSingle` | sae_auto_interp/scorers/recall/recall.py:181 | an empty answer is `IndexError`; a non-digit last character is `ValueError` naming it; success exactly when the last character is a digit; true exactly when it is `1` |
| `Judging.Interpret` | sae_auto_interp/scorers/recall/recall.py:165-183 | for more than one sample: success exactly when the answer is a mapping holding every key, with predictions `value == 1`; otherwise: success exactly when the batch has one sample and the answer is text ending in a digit, with prediction `last == '1'`; on success every sample keeps its labels and has a prediction |
| `Judging.Query` | sae_auto_interp/scorers/recall/recall.py:150-183 | on success the batch comes back the same length, every sample keeping its labels and carrying a prediction; a free-text answer to a batched request is a `TypeError` |
| `Scorer.PrepareBatches` | sae_auto_interp/scorers/recall/recall.py:87-110 | batch size 0 fails with `ValueError`; a negative size gives no batches; a positive size gives batches that concatenate to the assembled list, each of 1 to `batch_size` samples, all but the last full |
| `Scorer.Gather` | sae_auto_interp/scorers/recall/recall.py:124 | success exactly when every task succeeds, with result `j` from task `j`; a failure is the error of a failed task, the first in task order |
| `Scorer.QueryAll` | sae_auto_interp/scorers/recall/recall.py:118-124 | success exactly when every batch's query succeeds; result `j` then is the query result of batch `j`, the same length with labels kept and every sample predicted; a failure carries the error of the first failing batch in batch order |
| `Scorer.FlattenJudged` | sae_auto_interp/scorers/recall/recall.py:126-131 | judging batch by batch carries over to the flattened lists, position by position |
| `Scorer.ProcessBatches` | sae_auto_interp/scorers/recall/recall.py:112-131 | success exactly when every batch's query succeeds; the output has one record per input sample; every record has exactly the four `default()` keys; record `k` reads back as the `k`-th sample in batch-then-position order, judged |
| `Scorer.RecordsPerBatch` | sae_auto_interp/scorers/recall/recall.py:126-131 | one record list per judged batch, the records of that batch; flattened they are the records of the flattened results |
| `Scorer.DefaultsAppend` | sae_auto_interp/scorers/recall/recall.py:127-131 | turning samples into records distributes over concatenation |
| `Scorer.ProcessBatchesRegroup` | sae_auto_interp/scorers/recall/recall.py:126-131 | the output of `process_batches`, cut at the original batch boundaries, is exactly the per-batch records of the judged batches: flattening is order-preserving and lossless |
| `Scorer.Score` | sae_auto_interp/scorers/recall/recall.py:69-85 | batch size 0 fails; a negative size gives an empty result; every record of a success has exactly the four `default()` keys; a positive size that succeeds gives one record per assembled sample, record `k` being sample `k` of the assembled list, judged |
| `Scorer.ScoreFailsIffBatchFails` | sae_auto_interp/scorers/recall/recall.py:69-85 | a scoring call with a positive batch size fails exactly when the query of one of its batches fails |
| `Scorer.EmptyInputScoresNothing` | sae_auto_interp/scorers/recall/recall.py:107-124 | with no examples there are no batches, and the result is empty whatever the backend would answer, so no request matters |
| `Scorer.ProcessOneBatch` | sae_auto_interp/scorers/recall/recall.py:118-131 | processing a single batch is its query followed by the record conversion |
| `Scorer.ScoreSingleBatch` | sae_auto_interp/scorers/recall/recall.py:69-131 | when all samples fit in one batch, scoring is one query of the whole assembled list |
| `Scorer.SingleSampleScenario` | sae_auto_interp/scorers/recall/recall.py:150-181 | batch size 1, one activating example, answer ending in `1`: the one record has quantile 1, ground truth and prediction true |
| `Scorer.JudgeThree` | sae_auto_interp/scorers/recall/recall.py:165-173 | the answer `{example_0: 0, example_1: 1, example_2: 1}` judges a batch of three false, true, true |
| `Scorer.JudgeThreeMissing` | sae_auto_interp/scorers/recall/recall.py:172-173 | an answer without `example_1` fails a batch of three with `KeyError('example_1')` |
| `Scorer.BatchedScenario` | sae_auto_interp/scorers/recall/recall.py:165-173 | batch size 3, three samples, answer `{example_0: 0, example_1: 1, example_2: 1}`: the records read false, true, true in sample order |
| `Scorer.MissingKeyScenario` | sae_auto_interp/scorers/recall/recall.py:172-173 | batch size 3, three samples, answer missing `example_1`: the scoring call fails with that key instead of defaulting a prediction |
| `Seqs.FlattenIndex` | sae_auto_interp/scorers/recall/recall.py:129-130 | element `p` of part `j` sits in the flattened list right after all elements of earlier parts |
| `Seqs.Flatten` | sae_auto_interp/scorers/recall/recall.py:127-131 | the flattened list has as many elements as all the parts together |
| `Seqs.Regroup` | sae_auto_interp/scorers/recall/recall.py:126-131 | cutting a flat list at the boundaries of a shape gives parts of the shape's lengths that concatenate back to the list |
| `Seqs.RegroupFlatten` | sae_auto_interp/scorers/recall/recall.py:126-131 | flattening parts that have the lengths of a shape, then cutting at that shape's boundaries, gives the parts back |

## Left out

- Concurrency. `asyncio.gather` and the awaits on `client.generate` are a
  sequential map in batch order. When several batches fail, Python reports
  whichever failed first in time, but the model reports the first in batch
  order. Partly judged batches of a failed call are not observable, and are
  not modelled.
- The judge backend and the prompt template (`clean_prompt` from
  `prompt.py`). Neither is part of this model. The backend is a function
  parameter, and the request carries only what the scorer decides: the
  explanation, the example block, the batched flag and the schema size.
- Failures of the backend itself. The backend is a total function, so the
  model cannot express `client.generate` raising, for example on a timeout
  or a transport error (`sae_auto_interp/scorers/recall/recall.py:166-179`).
  In Python such an exception propagates through `query` and
  `asyncio.gather` and fails the whole call, as a malformed answer does.
  Being a function, the backend also answers identical requests
  identically.
- `create_response_model`, which builds the per-batch response schema. Its
  module is not part of this model. A structured answer is a
  `map<string, int>`.
- The generation options `temperature` and `max_tokens`, and the unused
  `echo` flag. They are passed through unchanged and do not affect the
  logic.
- The internals of the tokenizer, which is a `decode` parameter, and the
  unused `torch` import.
- `scripts/score.py`, the orchestration script. It loads models and files
  and calls a different scorer.
- The mutation in place of `predicted`. The model returns new samples
  instead. A `KeyError` in the middle of a batched parse leaves the earlier
  samples mutated in Python, but that batch is never returned, so the
  difference cannot be observed.
- `Judging.ParseSingle`: models `int()` on ASCII digits only. Python's
  `int` also accepts other Unicode decimal digits, such as Arabic-Indic
  digits. For such a character the model reports `ValueError` where Python
  would read the digit.
- `Judging.ParseStructured`: values are `int`. In Python a value of `True`
  also compares equal to 1, and a float `1.0` does too. Structured values of
  other types are not modelled.
- `Rendering.ExamplesBlock`: the split round trip is promised only for
  sample texts without a newline. A text with a newline splits into extra
  lines, so the block is then no longer one line per sample. The rendering
  itself, `ExampleLines`, has no such restriction.

=== FILE: assembly.dfy ===
/** Building the flat sample list from the two example pools
    (`RecallScorer._prepare`, before the batching comprehension). */
module Assembly {
  import opened Wrappers
  import opened Seqs
  import opened Samples

  /** The samples of the activating groups: group `i` (0-indexed) is
      labelled with quantile `i + 1` and ground truth `true`; groups are
      appended in enumeration order. */
  function Activating(groups: seq<seq<Example>>, decode: seq<int> -> string): (r: seq<Sample>)
    ensures |r| == |Flatten(groups)|
    ensures forall k :: 0 <= k < |r| ==>
      && r[k].groundTruth
      && 1 <= r[k].quantile <= |groups|
      && r[k].predicted == None
  {
    if |groups| == 0 then []
    else
      var i := |groups| - 1;
      var front := Activating(groups[..i], decode);
      front + PrepareSamples(groups[i], i + 1, true, decode)
  }

  /** `_prepare` without the final cut: the non-activating samples first,
      then the activating ones. */
  function Assemble(activating: seq<seq<Example>>, incorrect: seq<Example>,
                    decode: seq<int> -> string): (r: seq<Sample>)
    ensures |r| == |incorrect| + |Flatten(activating)|
    ensures forall k :: 0 <= k < |incorrect| ==>
      r[k] == Sample(decode(incorrect[k].tokens), NonActivating, false, None)
    ensures forall k :: 0 <= k < |r| ==> (r[k].groundTruth <==> k >= |incorrect|)
    ensures forall k :: 0 <= k < |r| ==> (r[k].quantile == NonActivating <==> !r[k].groundTruth)
    ensures forall k :: 0 <= k < |r| ==> r[k].predicted == None
  {
    PrepareSamples(incorrect, NonActivating, false, decode) + Activating(activating, decode)
  }

  /** The samples of each group on its own, group `i` labelled `i + 1`.
      Concatenated in order they are exactly the activating samples, so
      `_prepare`'s repeated `extend` loses no group boundary information. */
  function GroupSamples(groups: seq<seq<Example>>, decode: seq<int> -> string): (r: seq<seq<Sample>>)
    ensures |r| == |groups|
    ensures forall i :: 0 <= i < |groups| ==> r[i] == PrepareSamples(groups[i], i + 1, true, decode)
    ensures forall i :: 0 <= i < |groups| ==> |r[i]| == |groups[i]|
    ensures Flatten(r) == Activating(groups, decode)
    decreases |groups|
  {
    if |groups| == 0 then []
    else
      var n := |groups| - 1;
      var front := GroupSamples(groups[..n], decode);
      var r := front + [PrepareSamples(groups[n], n + 1, true, decode)];
      assert forall i :: 0 <= i < |groups| ==> r[i] == PrepareSamples(groups[i], i + 1, true, decode) by {
        forall i | 0 <= i < |groups|
          ensures r[i] == PrepareSamples(groups[i], i + 1, true, decode)
        {
          if i < n {
            assert r[i] == front[i];
            assert groups[..n][i] == groups[i];
          }
        }
      }
      assert Flatten(r) == Activating(groups, decode) by {
        assert r[..n] == front;
      }
      r
  }

  /** For any per-group sample lists labelled like `GroupSamples`, example
      `j` of group `i` sits right after all samples of the groups before it. */
  lemma LabelledPartsIndex(groups: seq<seq<Example>>, decode: seq<int> -> string,
                           parts: seq<seq<Sample>>, i: nat, j: nat)
    requires |parts| == |groups|
    requires forall k :: 0 <= k < |groups| ==> parts[k] == PrepareSamples(groups[k], k + 1, true, decode)
    requires i < |groups| && j < |groups[i]|
    ensures |Flatten(groups[..i])| + j < |Flatten(parts)|
    ensures Flatten(parts)[|Flatten(groups[..i])| + j] == Sample(decode(groups[i][j].tokens), i + 1, true, None)
  {
    var want := Sample(decode(groups[i][j].tokens), i + 1, true, None);
    assert parts[i][j] == want by {
      assert parts[i] == PrepareSamples(groups[i], i + 1, true, decode);
    }
    assert |Flatten(parts[..i])| == |Flatten(groups[..i])| by {
      FlattenLengthByShape(parts[..i], groups[..i]);
    }
    FlattenIndex(parts, i, j);
  }

  /** Example `j` of group `i` sits in the flattened per-group samples right
      after the samples of the groups before it. */
  lemma GroupSamplesIndex(groups: seq<seq<Example>>, decode: seq<int> -> string, i: nat, j: nat)
    requires i < |groups| && j < |groups[i]|
    ensures |Flatten(groups[..i])| + j < |Flatten(GroupSamples(groups, decode))|
    ensures Flatten(GroupSamples(groups, decode))[|Flatten(groups[..i])| + j]
         == Sample(decode(groups[i][j].tokens), i + 1, true, None)
  {
    LabelledPartsIndex(groups, decode, GroupSamples(groups, decode), i, j);
  }

  /** Example `j` of activating group `i` becomes the sample right after
      the samples of the groups before it, labelled `i + 1`. */
  lemma ActivatingIndex(groups: seq<seq<Example>>, decode: seq<int> -> string, i: nat, j: nat)
    requires i < |groups| && j < |groups[i]|
    ensures |Flatten(groups[..i])| + j < |Activating(groups, decode)|
    ensures Activating(groups, decode)[|Flatten(groups[..i])| + j]
         == Sample(decode(groups[i][j].tokens), i + 1, true, None)
  {
    GroupSamplesIndex(groups, decode, i, j);
  }

  /** The full placement: example `j` of activating group `i` lands at
      position `|incorrect| + (examples in earlier groups) + j`. Together with
      the length and the placement of `incorrect`, every input example
      appears exactly once. */
  lemma AssembleIndex(activating: seq<seq<Example>>, incorrect: seq<Example>,
                      decode: seq<int> -> string, i: nat, j: nat)
    requires i < |activating| && j < |activating[i]|
    ensures |incorrect| + |Flatten(activating[..i])| + j < |Assemble(activating, incorrect, decode)|
    ensures Assemble(activating, incorrect, decode)[|incorrect| + |Flatten(activating[..i])| + j]
         == Sample(decode(activating[i][j].tokens), i + 1, true, None)
  {
    ActivatingIndex(activating, decode, i, j);
  }

  predicate QuantilesSorted(samples: seq<Sample>)
  {
    forall k, m :: 0 <= k <= m < |samples| ==> samples[k].quantile <= samples[m].quantile
  }

  /** Groups are appended in enumeration order, so quantile labels never decrease. */
  lemma {:induction false} ActivatingSorted(groups: seq<seq<Example>>, decode: seq<int> -> string)
    ensures QuantilesSorted(Activating(groups, decode))
    decreases |groups|
  {
    if |groups| > 0 {
      var i := |groups| - 1;
      ActivatingSorted(groups[..i], decode);
      var front := Activating(groups[..i], decode);
      var tail := PrepareSamples(groups[i], i + 1, true, decode);
      assert forall k :: 0 <= k < |front| ==> front[k].quantile <= i;
      assert forall k :: 0 <= k < |tail| ==> tail[k].quantile == i + 1;
    }
  }

  /** The assembled list runs from quantile `-1` up through the groups in order. */
  lemma AssembleSorted(activating: seq<seq<Example>>, incorrect: seq<Example>, decode: seq<int> -> string)
    ensures QuantilesSorted(Assemble(activating, incorrect, decode))
  {
    ActivatingSorted(activating, decode);
  }
}

=== FILE: batching.dfy ===
/** Cutting the flat sample list into request-sized batches
    (`RecallScorer._prepare`, the final list comprehension). */
module Batching {
  import opened Seqs

  function Min(a: int, b: int): int { if a <= b then a else b }

  /** Python's `s[i:i + n]` for `0 <= i`: the upper bound is clamped to the length. */
  function Slice<T>(s: seq<T>, i: nat, n: nat): (r: seq<T>)
    requires i <= |s|
    ensures |r| == Min(n, |s| - i)
  {
    s[i..Min(i + n, |s|)]
  }

  /** The chunks `s[i:i+n]` for `i` in `range(start, len(s), n)`. */
  function ChunkFrom<T>(s: seq<T>, n: nat, start: nat): (r: seq<seq<T>>)
    requires n >= 1
    ensures forall j :: 0 <= j < |r| ==> 1 <= |r[j]| <= n
    ensures forall j :: 0 <= j < |r| - 1 ==> |r[j]| == n
    ensures |r| == 0 <==> start >= |s|
    decreases |s| - start
  {
    if start >= |s| then []
    else [Slice(s, start, n)] + ChunkFrom(s, n, start + n)
  }

  /** The chunks from `start` on concatenate to the rest of the list. */
  lemma {:induction false} ChunkFromFlatten<T>(s: seq<T>, n: nat, start: nat)
    requires n >= 1 && start <= |s|
    ensures Flatten(ChunkFrom(s, n, start)) == s[start..]
    decreases |s| - start
  {
    if start < |s| {
      var head := Slice(s, start, n);
      var rest := ChunkFrom(s, n, start + n);
      var next := Min(start + n, |s|);
      assert Flatten(rest) == s[next..] by {
        if start + n <= |s| {
          ChunkFromFlatten(s, n, start + n);
        } else {
          assert rest == [];
        }
      }
      assert ChunkFrom(s, n, start) == [head] + rest;
      FlattenHeadRest(ChunkFrom(s, n, start), head, rest, s[next..]);
      assert s[start..] == head + s[next..];
    }
  }

  /** `[s[i:i + n] for i in range(0, len(s), n)]`. */
  function Chunk<T>(s: seq<T>, n: nat): (r: seq<seq<T>>)
    requires n >= 1
    ensures Flatten(r) == s
    ensures forall j :: 0 <= j < |r| ==> 1 <= |r[j]| <= n
    ensures forall j :: 0 <= j < |r| - 1 ==> |r[j]| == n
    ensures |s| == 0 <==> r == []
  {
    ChunkFromFlatten(s, n, 0);
    ChunkFrom(s, n, 0)
  }

  /** The start offset of chunk `j`, counted in steps of `n`. */
  function ChunkStart(j: nat, n: nat): nat
  {
    if j == 0 then 0 else ChunkStart(j - 1, n) + n
  }

  lemma {:induction false} ChunkStartIsProduct(j: nat, n: nat)
    ensures ChunkStart(j, n) == j * n
  {
    if j > 0 {
      ChunkStartIsProduct(j - 1, n);
      assert j * n == (j - 1) * n + n;
    }
  }

  /** The reference reading of the comprehension: chunk `j` is the slice
      starting `j` steps after `start`. */
  lemma {:induction false} ChunkFromIndex<T>(s: seq<T>, n: nat, start: nat, j: nat)
    requires n >= 1 && start <= |s|
    requires start + ChunkStart(j, n) < |s|
    ensures j < |ChunkFrom(s, n, start)|
    ensures ChunkFrom(s, n, start)[j] == Slice(s, start + ChunkStart(j, n), n)
    decreases j
  {
    var all := ChunkFrom(s, n, start);
    var rest := ChunkFrom(s, n, start + n);
    assert all == [Slice(s, start, n)] + rest;
    if j > 0 {
      ChunkStartShift(j, n);
      ChunkFromIndex(s, n, start + n, j - 1);
      IndexAfterFirst(all, Slice(s, start, n), rest, j);
    }
  }

  /** Position `j > 0` of `[x] + rest` is position `j - 1` of `rest`. */
  lemma IndexAfterFirst<T>(all: seq<T>, x: T, rest: seq<T>, j: nat)
    requires all == [x] + rest && 0 < j <= |rest|
    ensures j < |all| && all[j] == rest[j - 1]
  {
  }

  /** Taking the first step first: `j` steps are one step and then `j - 1`. */
  lemma {:induction false} ChunkStartShift(j: nat, n: nat)
    requires j > 0
    ensures ChunkStart(j, n) == n + ChunkStart(j - 1, n)
  {
    if j > 1 {
      ChunkStartShift(j - 1, n);
    }
  }

  /** How many steps of `n` start below `m`. */
  function NumChunks(m: int, n: nat): nat
    requires n >= 1
    decreases m
  {
    if m <= 0 then 0 else 1 + NumChunks(m - n, n)
  }

  lemma {:induction false} NumChunksBounds(m: int, n: nat)
    requires n >= 1 && m > 0
    ensures NumChunks(m, n) >= 1
    ensures ChunkStart(NumChunks(m, n) - 1, n) < m <= ChunkStart(NumChunks(m, n), n)
    decreases m
  {
    var c := NumChunks(m, n);
    if m - n > 0 {
      NumChunksBounds(m - n, n);
      ChunkStartShift(c - 1, n);
      ChunkStartShift(c, n);
    } else {
      assert NumChunks(m - n, n) == 0;
      assert c == 1;
      assert ChunkStart(1, n) == n;
    }
  }

  /** There is one chunk per start offset below `|s|`. */
  lemma {:induction false} ChunkFromLength<T>(s: seq<T>, n: nat, start: nat)
    requires n >= 1
    ensures |ChunkFrom(s, n, start)| == NumChunks(|s| - start, n)
    decreases |s| - start
  {
    if start < |s| {
      var rest := ChunkFrom(s, n, start + n);
      assert ChunkFrom(s, n, start) == [Slice(s, start, n)] + rest;
      ChunkFromLength(s, n, start + n);
      assert NumChunks(|s| - start, n) == 1 + NumChunks(|s| - (start + n), n);
    }
  }

  /** Chunk `j` of `Chunk(s, n)` is `s[j*n : j*n + n]`. */
  lemma ChunkIndex<T>(s: seq<T>, n: nat, j: nat)
    requires n >= 1 && j * n < |s|
    ensures j < |Chunk(s, n)|
    ensures Chunk(s, n)[j] == Slice(s, j * n, n)
  {
    ChunkStartIsProduct(j, n);
    ChunkFromIndex(s, n, 0, j);
  }

  /** The number of chunks is the ceiling of `|s| / n`. */
  lemma ChunkCount<T>(s: seq<T>, n: nat)
    requires n >= 1 && |s| > 0
    ensures (|Chunk(s, n)| - 1) * n < |s| <= |Chunk(s, n)| * n
  {
    var c := |ChunkFrom(s, n, 0)|;
    ChunkFromLength(s, n, 0);
    NumChunksBounds(|s|, n);
    ChunkStartIsProduct(c - 1, n);
    ChunkStartIsProduct(c, n);
  }
}

=== FILE: errors.dfy ===
/** The exceptions the scorer's own code raises: by `_prepare` when it cuts
    the batches (`RecallScorer._prepare`) and by the parse of an answer
    (`RecallScorer.query`). */
module Errors {

  /** Why a scoring call fails, each named after the Python error it stands for. */
  datatype ScoreError =
    | MissingKey(key: string)   // KeyError: the structured response lacks `example_i`
    | MissingLastKey            // KeyError(-1): a mapping where free text was expected
    | EmptyText                 // IndexError: `selections[-1]` of an empty string
    | NotADigit(c: char)        // ValueError: `int(c)` of a non-digit character
    | TextNotIndexable          // TypeError: a string indexed by `"example_i"`
    | EmptyBatch                // IndexError: `batch[0]` of an empty batch
    | ZeroBatchSize             // ValueError: `range` with a step of zero in `_prepare`
}

=== FILE: judging.dfy ===
/** One judge request per batch and the parsing of its answer
    (`RecallScorer.query`). */
module Judging {
  import opened Wrappers
  import opened Errors
  import opened Numerals
  import opened Samples
  import opened Rendering

  /** What the backend returns: a mapping read from constrained structured
      output, or free text. */
  datatype Response = Structured(fields: map<string, int>) | Text(body: string)

  /** The parts of a judge request the scorer decides: the explanation and
      the example block go into the prompt template, `batched` selects the
      template variant and whether a response schema is attached, and `size`
      is the batch length that schema is built for (`example_0` up to
      `example_{size - 1}`). */
  datatype Request = Request(explanation: string, examples: string, batched: bool, size: nat)

  /** The request `query` sends for a batch: batched exactly when the batch
      holds more than one sample, with a schema for as many fields as there
      are samples, and the example block of the batch. */
  function QueryRequest(batch: seq<Sample>, explanation: string): (req: Request)
    ensures req.batched <==> |batch| > 1
    ensures req.size == |batch|
    ensures req.explanation == explanation
    ensures |batch| >= 1 && (forall k :: 0 <= k < |batch| ==> NoNewline(batch[k].text))
      ==> SplitLines(req.examples) == ExampleLines(batch)
  {
    Request(explanation, ExamplesBlock(batch), |batch| > 1, |batch|)
  }

  /** The batched loop from position `i` on: each sample in turn gets
      `fields["example_i"] == 1`, stopping at the first missing key. */
  function MarkFrom(batch: seq<Sample>, fields: map<string, int>, i: nat): (r: Result<seq<Sample>, ScoreError>)
    ensures r.Success? <==> forall k :: i <= k < |batch| ==> ExampleKey(k) in fields
    ensures r.Success? ==> |r.value| == |batch|
    ensures r.Success? ==> forall k :: 0 <= k < |batch| && k < i ==> r.value[k] == batch[k]
    ensures r.Success? ==> forall k :: i <= k < |batch| ==>
      r.value[k] == batch[k].(predicted := Some(fields[ExampleKey(k)] == 1))
    ensures r.Failure? ==>
      exists k :: i <= k < |batch| && r.error == MissingKey(ExampleKey(k)) && ExampleKey(k) !in fields
        && (forall m :: i <= m < k ==> ExampleKey(m) in fields)
    decreases |batch| - i
  {
    if i >= |batch| then Success(batch)
    else if ExampleKey(i) !in fields then Failure(MissingKey(ExampleKey(i)))
    else MarkFrom(batch[i := batch[i].(predicted := Some(fields[ExampleKey(i)] == 1))], fields, i + 1)
  }

  /** The batched branch of `query`: every key present gives every sample its
      prediction, other fields unchanged; otherwise the first missing key is
      the error, and no prediction is defaulted. */
  function ParseStructured(batch: seq<Sample>, fields: map<string, int>): (r: Result<seq<Sample>, ScoreError>)
    ensures r.Success? <==> forall k :: 0 <= k < |batch| ==> ExampleKey(k) in fields
    ensures r.Success? ==> |r.value| == |batch| && forall k :: 0 <= k < |batch| ==>
      r.value[k] == batch[k].(predicted := Some(fields[ExampleKey(k)] == 1))
    ensures r.Failure? ==>
      exists k :: 0 <= k < |batch| && r.error == MissingKey(ExampleKey(k)) && ExampleKey(k) !in fields
        && (forall m :: 0 <= m < k ==> ExampleKey(m) in fields)
  {
    MarkFrom(batch, fields, 0)
  }

  /** The single branch of `query`: `int(selections[-1]) == 1`. */
  function ParseSingle(body: string): (r: Result<bool, ScoreError>)
    ensures r == Failure(EmptyText) <==> |body| == 0
    ensures r.Success? <==> |body| > 0 && IsDigit(body[|body| - 1])
    ensures r.Failure? && |body| > 0 ==> r.error == NotADigit(body[|body| - 1])
    ensures r == Success(true) <==> |body| > 0 && body[|body| - 1] == '1'
  {
    if |body| == 0 then Failure(EmptyText)
    else
      var c := body[|body| - 1];
      if IsDigit(c) then Success(DigitValue(c) == 1) else Failure(NotADigit(c))
  }

  /** Reading the backend's answer for a batch, in the mode the batch size selects. */
  function Interpret(batch: seq<Sample>, response: Response): (r: Result<seq<Sample>, ScoreError>)
    ensures r.Success? ==> |r.value| == |batch| && forall k :: 0 <= k < |batch| ==> Judged(r.value[k], batch[k])
    ensures |batch| > 1 ==>
      (r.Success? <==> response.Structured? && forall k :: 0 <= k < |batch| ==> ExampleKey(k) in response.fields)
    ensures |batch| > 1 && r.Success? ==> forall k :: 0 <= k < |batch| ==>
      r.value[k].predicted == Some(response.fields[ExampleKey(k)] == 1)
    ensures |batch| <= 1 ==>
      (r.Success? <==> |batch| == 1 && response.Text? && |response.body| > 0
                       && IsDigit(response.body[|response.body| - 1]))
    ensures |batch| <= 1 && r.Success? ==>
      r.value[0].predicted == Some(response.body[|response.body| - 1] == '1')
  {
    if |batch| > 1 then
      match response
      case Structured(fields) => ParseStructured(batch, fields)
      case Text(_) => Failure(TextNotIndexable)
    else
      match response
      case Structured(_) => Failure(MissingLastKey)
      case Text(body) =>
        var v :- ParseSingle(body);
        if |batch| == 0 then Failure(EmptyBatch)
        else Success([batch[0].(predicted := Some(v))])
  }

  /** `query`: one backend call for the batch, then the parse. On success
      every sample keeps its labels and carries a prediction. */
  function Query(batch: seq<Sample>, explanation: string, backend: Request -> Response): (r: Result<seq<Sample>, ScoreError>)
    ensures r.Success? ==> |r.value| == |batch| && forall k :: 0 <= k < |batch| ==> Judged(r.value[k], batch[k])
    ensures |batch| > 1 && backend(QueryRequest(batch, explanation)).Text? ==> r == Failure(TextNotIndexable)
  {
    Interpret(batch, backend(QueryRequest(batch, explanation)))
  }
}

=== FILE: numerals.dfy ===
/** Decimal numerals, as produced by Python's `str` on a non-negative
    `int` (the `{i}` in the example lines and the response keys). */
module Numerals {

  predicate IsDigit(c: char)
  {
    '0' <= c <= '9'
  }

  predicate AllDigits(s: string)
  {
    forall k :: 0 <= k < |s| ==> IsDigit(s[k])
  }

  function DigitValue(c: char): (v: nat)
    requires IsDigit(c)
    ensures v < 10
  {
    c as int - '0' as int
  }

  function DigitChar(d: nat): (c: char)
    requires d < 10
    ensures IsDigit(c) && DigitValue(c) == d
  {
    ('0' as int + d) as char
  }

  /** The decimal spelling of `n`: non-empty, all digits, and no leading zero. */
  function Numeral(n: nat): (s: string)
    ensures |s| >= 1 && AllDigits(s)
    ensures n == 0 <==> s == "0"
    ensures s[0] == '0' ==> n == 0
    decreases n
  {
    if n < 10 then [DigitChar(n)]
    else Numeral(n / 10) + [DigitChar(n % 10)]
  }

  /** The value of a string of decimal digits. */
  function ParseNat(s: string): nat
    requires AllDigits(s)
  {
    if |s| == 0 then 0
    else ParseNat(s[..|s| - 1]) * 10 + DigitValue(s[|s| - 1])
  }

  /** Reading a numeral back gives the number it spells. */
  lemma {:induction false} ParseNumeral(n: nat)
    ensures ParseNat(Numeral(n)) == n
    decreases n
  {
    if n >= 10 {
      var s := Numeral(n);
      assert s[..|s| - 1] == Numeral(n / 10);
      ParseNumeral(n / 10);
    }
  }

  /** Different numbers have different numerals. */
  lemma NumeralInjective(m: nat, n: nat)
    ensures Numeral(m) == Numeral(n) <==> m == n
  {
    if Numeral(m) == Numeral(n) {
      ParseNumeral(m);
      ParseNumeral(n);
    }
  }
}

=== FILE: rendering.dfy ===
/** The example block of a judge prompt (`RecallScorer.build_prompt`) and
    the response keys the batched parser reads (`RecallScorer.query`). Both
    number a sample by its position inside its batch. */
module Rendering {
  import opened Wrappers
  import opened Numerals
  import opened Samples

  /** `f"Example {i}: {text}"`. A reader of the line finds the decimal
      text of `i` before the colon and exactly `text` after it; the line
      holds a newline only where the text does. */
  function ExampleLine(i: nat, text: string): (line: string)
    ensures LineParts(line) == Some((Numeral(i), text))
    ensures LineIndex(line) == Some(i)
    ensures |text| <= |line| && line[|line| - |text|..] == text
    ensures NoNewline(text) ==> NoNewline(line)
  {
    var num := Numeral(i);
    var line := "Example " + num + ": " + text;
    PrefixedIndex(i, text);
    assert NoNewline(text) ==> NoNewline(line) by {
      if NoNewline(text) {
        NoNewlineAppend("Example ", num);
        NoNewlineAppend("Example " + num, ": ");
        NoNewlineAppend("Example " + num + ": ", text);
      }
    }
    line
  }

  /** The number right after `"Example "` and before `": "` is read back,
      and so is the text after the `": "`. */
  lemma PrefixedIndex(i: nat, text: string)
    ensures LineParts("Example " + Numeral(i) + ": " + text) == Some((Numeral(i), text))
    ensures LineIndex("Example " + Numeral(i) + ": " + text) == Some(i)
  {
    var num := Numeral(i);
    var line := "Example " + num + ": " + text;
    var rest := line[8..];
    assert line[..8] == "Example " && rest == num + (": " + text) by {
      assert line == "Example " + (num + (": " + text));
    }
    assert DigitRun(rest) == |num| by {
      DigitRunAppend(num, ": " + text);
    }
    assert rest[..|num|] == num && rest[|num|..|num| + 2] == ": " && rest[|num| + 2..] == text;
    ParseNumeral(i);
  }

  /** The line is determined by what a reader finds on it: a line that
      reads as the decimal text of `i` and `text` is the line for them. */
  lemma ExampleLineReadBack(line: string, i: nat, text: string)
    requires LineParts(line) == Some((Numeral(i), text))
    ensures line == ExampleLine(i, text)
  {
    var rest := line[8..];
    var d := DigitRun(rest);
    assert rest == rest[..d] + rest[d..d + 2] + rest[d + 2..];
    assert line == line[..8] + rest;
  }

  /** Joining two newline-free strings gives a newline-free string. */
  lemma NoNewlineAppend(a: string, b: string)
    requires NoNewline(a) || AllDigits(a)
    requires NoNewline(b) || AllDigits(b)
    ensures NoNewline(a + b)
  {
    forall k | 0 <= k < |a + b|
      ensures (a + b)[k] != '\n'
    {
      if k < |a| {
        assert (a + b)[k] == a[k];
      } else {
        assert (a + b)[k] == b[k - |a|];
      }
    }
  }

  /** `f"example_{i}"`, the field of the structured response for position `i`. */
  function ExampleKey(i: nat): string
  {
    "example_" + Numeral(i)
  }

  /** The key for position `i` names `i` and nothing else. */
  lemma ExampleKeyIndex(i: nat)
    ensures KeyIndex(ExampleKey(i)) == Some(i)
  {
    var num := Numeral(i);
    var key := ExampleKey(i);
    ParseNumeral(i);
    assert key[..8] == "example_";
    assert key[8..] == num;
  }

  /** One line per sample, numbered by `enumerate(batch)`: line `i` names
      position `i` and ends with the text of sample `i`; `ExampleLine` says
      it reads back exactly that text. */
  function ExampleLines(batch: seq<Sample>): (lines: seq<string>)
    ensures |lines| == |batch|
    ensures forall i :: 0 <= i < |batch| ==> lines[i] == ExampleLine(i, batch[i].text)
    ensures forall i :: 0 <= i < |batch| ==> LineIndex(lines[i]) == Some(i)
    ensures forall i :: 0 <= i < |batch| ==>
      |batch[i].text| <= |lines[i]| && lines[i][|lines[i]| - |batch[i].text|..] == batch[i].text
  {
    seq(|batch|, i requires 0 <= i < |batch| => ExampleLine(i, batch[i].text))
  }

  /** `"\n".join(lines)`. Splitting the result at newlines gives the lines
      back whenever there is at least one line and none holds a newline. */
  function Join(lines: seq<string>): (s: string)
    ensures |lines| >= 1 && (forall k :: 0 <= k < |lines| ==> NoNewline(lines[k]))
      ==> SplitLines(s) == lines
    decreases |lines|
  {
    if |lines| == 0 then ""
    else if |lines| == 1 then
      var s := lines[0];
      assert NoNewline(s) ==> SplitLines(s) == lines by {
        if NoNewline(s) {
          SplitFromPlain(s, "", "");
          assert s + "" == s && "" + s == s;
        }
      }
      s
    else
      var rest := Join(lines[1..]);
      var s := lines[0] + "\n" + rest;
      assert NoNewline(lines[0]) ==> SplitLines(s) == [lines[0]] + SplitLines(rest) by {
        if NoNewline(lines[0]) {
          SplitLine(lines[0], rest);
        }
      }
      assert lines == [lines[0]] + lines[1..];
      s
  }

  /** The pieces of `s` between newlines, the first one prefixed by `current`. */
  function SplitFrom(s: string, current: string): (parts: seq<string>)
    ensures |parts| >= 1
  {
    if |s| == 0 then [current]
    else if s[0] == '\n' then [current] + SplitFrom(s[1..], "")
    else SplitFrom(s[1..], current + [s[0]])
  }

  /** `s.split("\n")`: the pieces between newlines; never empty. */
  function SplitLines(s: string): (parts: seq<string>)
    ensures |parts| >= 1
  {
    SplitFrom(s, "")
  }

  /** The `examples` argument `build_prompt` hands to the prompt template:
      empty for an empty batch, and otherwise, when no text holds a newline,
      exactly one line per sample in batch order. */
  function ExamplesBlock(batch: seq<Sample>): (block: string)
    ensures |batch| == 0 ==> block == ""
    ensures |batch| >= 1 && (forall k :: 0 <= k < |batch| ==> NoNewline(batch[k].text))
      ==> SplitLines(block) == ExampleLines(batch)
  {
    Join(ExampleLines(batch))
  }

  predicate NoNewline(s: string)
  {
    forall k :: 0 <= k < |s| ==> s[k] != '\n'
  }

  /** A newline-free piece simply extends the part being read. */
  lemma {:induction false} SplitFromPlain(b: string, rest: string, current: string)
    requires NoNewline(b)
    ensures SplitFrom(b + rest, current) == SplitFrom(rest, current + b)
    decreases |b|
  {
    if |b| == 0 {
      assert b + rest == rest;
      assert current + b == current;
    } else {
      assert (b + rest)[0] == b[0];
      assert (b + rest)[1..] == b[1..] + rest;
      SplitFromPlain(b[1..], rest, current + [b[0]]);
      assert (current + [b[0]]) + b[1..] == current + b;
    }
  }

  /** A newline-free line followed by a newline is one complete part. */
  lemma SplitLine(line: string, rest: string)
    requires NoNewline(line)
    ensures SplitLines(line + "\n" + rest) == [line] + SplitLines(rest)
  {
    SplitFromPlain(line, "\n" + rest, "");
    assert line + "\n" + rest == line + ("\n" + rest);
    assert ("\n" + rest)[1..] == rest;
    assert "" + line == line;
  }

  /** Length of the run of digits that starts `s`. */
  function DigitRun(s: string): (n: nat)
    ensures n <= |s|
    ensures AllDigits(s[..n])
    ensures n < |s| ==> !IsDigit(s[n])
  {
    if |s| == 0 || !IsDigit(s[0]) then 0
    else
      var n := 1 + DigitRun(s[1..]);
      assert s[..n] == [s[0]] + s[1..][..n - 1];
      n
  }

  lemma {:induction false} DigitRunAppend(a: string, b: string)
    requires AllDigits(a)
    requires |b| > 0 && !IsDigit(b[0])
    ensures DigitRun(a + b) == |a|
    decreases |a|
  {
    if |a| > 0 {
      assert (a + b)[1..] == a[1..] + b;
      DigitRunAppend(a[1..], b);
    } else {
      assert a + b == b;
    }
  }

  /** What a reader of the prompt finds on a line: the digits after
      `"Example "` and before the first `": "`, and the text after it. */
  function LineParts(line: string): (parts: Option<(string, string)>)
    ensures parts.Some? ==> |parts.value.0| > 0 && AllDigits(parts.value.0)
  {
    if |line| < 8 || line[..8] != "Example " then None
    else
      var rest := line[8..];
      var d := DigitRun(rest);
      if d == 0 || d + 2 > |rest| || rest[d..d + 2] != ": " then None
      else Some((rest[..d], rest[d + 2..]))
  }

  /** The index a reader of the prompt sees on a line: the number its digits spell. */
  function LineIndex(line: string): Option<nat>
  {
    match LineParts(line)
    case None => None
    case Some((digits, _)) => Some(ParseNat(digits))
  }

  /** The index a key `example_<digits>` names. */
  function KeyIndex(key: string): Option<nat>
  {
    if |key| <= 8 || key[..8] != "example_" || !AllDigits(key[8..]) then None
    else Some(ParseNat(key[8..]))
  }

  /** Index alignment: in every batch, the line rendered at position `i`
      and the response key read for position `i` both name `i`, so the
      judge's answer for a line is read back for the sample on that line. */
  lemma IndexAlignment(batch: seq<Sample>)
    ensures forall i :: 0 <= i < |batch| ==>
      LineIndex(ExampleLines(batch)[i]) == KeyIndex(ExampleKey(i)) == Some(i)
  {
    forall i | 0 <= i < |batch|
      ensures KeyIndex(ExampleKey(i)) == Some(i)
    {
      ExampleKeyIndex(i);
    }
  }

  /** Distinct positions read distinct keys. */
  lemma ExampleKeyInjective(i: nat, j: nat)
    ensures ExampleKey(i) == ExampleKey(j) <==> i == j
  {
    ExampleKeyIndex(i);
    ExampleKeyIndex(j);
  }
}

=== FILE: samples.dfy ===
/** The unit of evaluation (`Sample` in the recall scorer) and its plain
    record form. */
module Samples {
  import opened Wrappers

  /** A raw example as handed to the scorer; only its tokens are read. */
  datatype Example = Example(tokens: seq<int>)

  /** A text shown to the judge, the quantile it came from (`-1` for a
      non-activating example), whether it truly activates, and the judge's
      answer once known. */
  datatype Sample = Sample(text: string, quantile: int, groundTruth: bool, predicted: Option<bool>)

  /** The quantile label of every non-activating sample. */
  const NonActivating: int := -1

  /** `Sample._prepare_samples`: one fresh, unjudged sample per example, in
      order, each with the text the tokenizer decodes from its tokens. */
  function PrepareSamples(examples: seq<Example>, quantile: int, groundTruth: bool,
                          decode: seq<int> -> string): (r: seq<Sample>)
    ensures |r| == |examples|
    ensures forall k :: 0 <= k < |r| ==>
      r[k] == Sample(decode(examples[k].tokens), quantile, groundTruth, None)
  {
    if |examples| == 0 then []
    else
      var last := examples[|examples| - 1];
      PrepareSamples(examples[..|examples| - 1], quantile, groundTruth, decode)
        + [Sample(decode(last.tokens), quantile, groundTruth, None)]
  }

  /** Two samples agree on everything fixed at construction. */
  predicate SameLabels(a: Sample, b: Sample)
  {
    a.text == b.text && a.quantile == b.quantile && a.groundTruth == b.groundTruth
  }

  /** `a` is `b` after judging: same labels, and a prediction is present. */
  predicate Judged(a: Sample, b: Sample)
  {
    SameLabels(a, b) && a.predicted.Some?
  }

  /** A value of a Python dictionary built by `Sample.default`. */
  datatype Value = Str(s: string) | Int(i: int) | Bool(b: bool) | Null

  type Record = map<string, Value>

  /** The keys of every record `Sample.default` builds. */
  const RecordKeys: set<string> := {"text", "quantile", "ground_truth", "predicted"}

  /** Reads a record back into a sample; `None` when a field is missing or
      has the wrong kind. */
  function FromRecord(rec: Record): Option<Sample>
  {
    if "text" in rec && "quantile" in rec && "ground_truth" in rec && "predicted" in rec
       && rec["text"].Str? && rec["quantile"].Int? && rec["ground_truth"].Bool?
       && (rec["predicted"].Bool? || rec["predicted"].Null?)
    then
      var predicted := if rec["predicted"].Bool? then Some(rec["predicted"].b) else None;
      Some(Sample(rec["text"].s, rec["quantile"].i, rec["ground_truth"].b, predicted))
    else None
  }

  /** `Sample.default`: the four fields as a dictionary, an unset
      prediction becoming `None`. The record holds exactly the sample. */
  function Default(s: Sample): (rec: Record)
    ensures rec.Keys == RecordKeys
    ensures FromRecord(rec) == Some(s)
    ensures rec["predicted"] == Null <==> s.predicted == None
  {
    map["text" := Str(s.text),
        "quantile" := Int(s.quantile),
        "ground_truth" := Bool(s.groundTruth),
        "predicted" := if s.predicted.Some? then Bool(s.predicted.value) else Null]
  }

  /** `[item.default() for item in samples]`. */
  function Defaults(samples: seq<Sample>): (recs: seq<Record>)
    ensures |recs| == |samples|
    ensures forall k :: 0 <= k < |recs| ==> recs[k] == Default(samples[k])
    ensures forall k :: 0 <= k < |recs| ==> recs[k].Keys == RecordKeys && FromRecord(recs[k]) == Some(samples[k])
  {
    if |samples| == 0 then []
    else Defaults(samples[..|samples| - 1]) + [Default(samples[|samples| - 1])]
  }
}

=== FILE: scorer.dfy ===
/** The scorer's entry points: `_prepare`, `process_batches` and `__call__`
    of `RecallScorer`. The concurrent fan-out over batches is modelled as a
    sequential map in batch order, which is the order `asyncio.gather`
    returns results in. */
module Scorer {
  import opened Wrappers
  import opened Errors
  import opened Seqs
  import opened Batching
  import opened Samples
  import opened Assembly
  import opened Rendering
  import opened Judging

  /** `_prepare`: the assembled samples cut into consecutive batches of
      `batchSize`. As with Python's `range`, a step of zero is an error and
      a negative step yields no batches at all. */
  function PrepareBatches(activating: seq<seq<Example>>, incorrect: seq<Example>,
                          decode: seq<int> -> string, batchSize: int): (r: Result<seq<seq<Sample>>, ScoreError>)
    ensures r.Failure? <==> batchSize == 0
    ensures r.Failure? ==> r.error == ZeroBatchSize
    ensures batchSize < 0 ==> r == Success([])
    ensures batchSize > 0 ==> r.Success? && Flatten(r.value) == Assemble(activating, incorrect, decode)
    ensures batchSize > 0 ==> forall j :: 0 <= j < |r.value| ==>
      1 <= |r.value[j]| <= batchSize && (j < |r.value| - 1 ==> |r.value[j]| == batchSize)
  {
    var samples := Assemble(activating, incorrect, decode);
    if batchSize == 0 then Failure(ZeroBatchSize)
    else if batchSize < 0 then Success([])
    else Success(Chunk(samples, batchSize))
  }

  /** `asyncio.gather` over already-created tasks: all results in task
      order, or the error of the first task (in task order) that failed. */
  function Gather<T, E>(rs: seq<Result<T, E>>): (r: Result<seq<T>, E>)
    ensures r.Success? <==> forall j :: 0 <= j < |rs| ==> rs[j].Success?
    ensures r.Success? ==> |r.value| == |rs| && forall j :: 0 <= j < |rs| ==> r.value[j] == rs[j].value
    ensures r.Failure? ==>
      exists j :: 0 <= j < |rs| && rs[j] == Failure(r.error) && (forall m :: 0 <= m < j ==> rs[m].Success?)
  {
    if |rs| == 0 then Success([])
    else
      var n := |rs| - 1;
      assert forall j :: 0 <= j < n ==> rs[..n][j] == rs[j];
      var front :- Gather(rs[..n]);
      var last :- rs[n];
      Success(front + [last])
  }

  /** The gathered results of `[self.query(batch, explanation) for batch in
      batches]`. Result `j` is the query of batch `j`; if any batch fails the
      whole call fails, here with the error of the first failing batch. */
  function QueryAll(batches: seq<seq<Sample>>, explanation: string, backend: Request -> Response)
    : (r: Result<seq<seq<Sample>>, ScoreError>)
    ensures r.Success? <==> forall j :: 0 <= j < |batches| ==> Query(batches[j], explanation, backend).Success?
    ensures r.Success? ==> |r.value| == |batches| && forall j :: 0 <= j < |batches| ==>
      r.value[j] == Query(batches[j], explanation, backend).value
    ensures r.Success? ==> forall j :: 0 <= j < |batches| ==>
      |r.value[j]| == |batches[j]| && forall p :: 0 <= p < |batches[j]| ==> Judged(r.value[j][p], batches[j][p])
    ensures r.Failure? ==>
      exists j :: 0 <= j < |batches| && Query(batches[j], explanation, backend) == Failure(r.error)
        && (forall m :: 0 <= m < j ==> Query(batches[m], explanation, backend).Success?)
  {
    var query := b => Query(b, explanation, backend);
    var tasks := seq(|batches|, j requires 0 <= j < |batches| => query(batches[j]));
    GatherEach(batches, query, tasks);
    var g := Gather(tasks);
    assert g.Success? ==> forall j :: 0 <= j < |batches| ==>
      |g.value[j]| == |batches[j]| && forall p :: 0 <= p < |batches[j]| ==> Judged(g.value[j][p], batches[j][p])
    by {
      if g.Success? {
        forall j | 0 <= j < |batches|
          ensures |g.value[j]| == |batches[j]|
          ensures forall p :: 0 <= p < |batches[j]| ==> Judged(g.value[j][p], batches[j][p])
        {
          assert g.value[j] == Query(batches[j], explanation, backend).value;
        }
      }
    }
    g
  }

  /** Gathering the results of `f` over `xs`, read element by element. */
  lemma GatherEach<A, B, E>(xs: seq<A>, f: A -> Result<B, E>, tasks: seq<Result<B, E>>)
    requires |tasks| == |xs| && forall j :: 0 <= j < |xs| ==> tasks[j] == f(xs[j])
    ensures Gather(tasks).Success? <==> forall j :: 0 <= j < |xs| ==> f(xs[j]).Success?
    ensures Gather(tasks).Success? ==> |Gather(tasks).value| == |xs|
    ensures Gather(tasks).Success? ==> forall j :: 0 <= j < |xs| ==> Gather(tasks).value[j] == f(xs[j]).value
    ensures Gather(tasks).Failure? ==>
      exists j :: 0 <= j < |xs| && f(xs[j]) == Failure(Gather(tasks).error)
        && (forall m :: 0 <= m < j ==> f(xs[m]).Success?)
  {
    var g := Gather(tasks);
    if g.Failure? {
      var j :| 0 <= j < |tasks| && tasks[j] == Failure(g.error) && (forall m :: 0 <= m < j ==> tasks[m].Success?);
      assert f(xs[j]) == Failure(g.error);
    }
  }

  /** Judging part by part carries over to the flattened sequences. */
  lemma {:induction false} FlattenJudged(results: seq<seq<Sample>>, batches: seq<seq<Sample>>)
    requires |results| == |batches|
    requires forall j :: 0 <= j < |batches| ==>
      |results[j]| == |batches[j]| && forall p :: 0 <= p < |batches[j]| ==> Judged(results[j][p], batches[j][p])
    ensures |Flatten(results)| == |Flatten(batches)|
    ensures forall k :: 0 <= k < |Flatten(results)| ==> Judged(Flatten(results)[k], Flatten(batches)[k])
    decreases |batches|
  {
    if |batches| > 0 {
      var n := |batches| - 1;
      FlattenJudged(results[..n], batches[..n]);
    }
  }

  /** `process_batches`: every batch judged, then all samples flattened in
      batch-then-position order and turned into records. Output `k` holds
      the labels of the `k`-th input sample and a prediction. */
  function ProcessBatches(batches: seq<seq<Sample>>, explanation: string, backend: Request -> Response)
    : (r: Result<seq<Record>, ScoreError>)
    ensures r.Success? <==> forall j :: 0 <= j < |batches| ==> Query(batches[j], explanation, backend).Success?
    ensures r.Success? ==> |r.value| == |Flatten(batches)|
    ensures r.Success? ==> forall k :: 0 <= k < |r.value| ==> r.value[k].Keys == RecordKeys
    ensures r.Success? ==> forall k :: 0 <= k < |r.value| ==>
      FromRecord(r.value[k]).Some? && Judged(FromRecord(r.value[k]).value, Flatten(batches)[k])
  {
    var results :- QueryAll(batches, explanation, backend);
    FlattenJudged(results, batches);
    Success(Defaults(Flatten(results)))
  }

  lemma {:induction false} DefaultsAppend(a: seq<Sample>, b: seq<Sample>)
    ensures Defaults(a + b) == Defaults(a) + Defaults(b)
    decreases |b|
  {
    if |b| == 0 {
      assert a + b == a;
    } else {
      var b' := b[..|b| - 1];
      assert (a + b)[..|a + b| - 1] == a + b';
      DefaultsAppend(a, b');
    }
  }

  /** The records of each batch, batch by batch. Concatenated they are the
      records of all samples in batch-then-position order. */
  function RecordsPerBatch(results: seq<seq<Sample>>): (r: seq<seq<Record>>)
    ensures |r| == |results|
    ensures forall j :: 0 <= j < |r| ==> r[j] == Defaults(results[j])
    ensures Flatten(r) == Defaults(Flatten(results))
    decreases |results|
  {
    if |results| == 0 then []
    else
      var n := |results| - 1;
      var front := RecordsPerBatch(results[..n]);
      var r := front + [Defaults(results[n])];
      assert forall j :: 0 <= j < |r| ==> r[j] == Defaults(results[j]) by {
        forall j | 0 <= j < |r|
          ensures r[j] == Defaults(results[j])
        {
          if j < n {
            assert r[j] == front[j];
            assert results[..n][j] == results[j];
          }
        }
      }
      assert Flatten(r) == Defaults(Flatten(results)) by {
        assert r[..n] == front;
        DefaultsAppend(Flatten(results[..n]), results[n]);
      }
      r
  }

  /** Flattening is lossless: cutting the output of `process_batches` at the
      original batch boundaries gives back the records of each judged batch. */
  lemma ProcessBatchesRegroup(batches: seq<seq<Sample>>, explanation: string, backend: Request -> Response)
    requires ProcessBatches(batches, explanation, backend).Success?
    ensures QueryAll(batches, explanation, backend).Success?
    ensures var out := ProcessBatches(batches, explanation, backend).value;
      |out| == |Flatten(batches)|
      && Regroup(out, batches) == RecordsPerBatch(QueryAll(batches, explanation, backend).value)
  {
    var results := QueryAll(batches, explanation, backend).value;
    var perBatch := RecordsPerBatch(results);
    RegroupFlatten(perBatch, batches);
  }

  /** `RecallScorer.__call__`: prepare the batches, then process them. */
  function Score(activating: seq<seq<Example>>, incorrect: seq<Example>, explanation: string,
                 decode: seq<int> -> string, batchSize: int, backend: Request -> Response)
    : (r: Result<seq<Record>, ScoreError>)
    ensures batchSize == 0 ==> r == Failure(ZeroBatchSize)
    ensures batchSize < 0 ==> r == Success([])
    ensures batchSize > 0 && r.Success? ==> |r.value| == |incorrect| + |Flatten(activating)|
    ensures r.Success? ==> forall k :: 0 <= k < |r.value| ==> r.value[k].Keys == RecordKeys
    ensures batchSize > 0 && r.Success? ==> forall k :: 0 <= k < |r.value| ==>
      FromRecord(r.value[k]).Some?
      && Judged(FromRecord(r.value[k]).value, Assemble(activating, incorrect, decode)[k])
  {
    var batches :- PrepareBatches(activating, incorrect, decode, batchSize);
    ProcessBatches(batches, explanation, backend)
  }

  /** A scoring call fails exactly when the judging of one of its batches fails. */
  lemma ScoreFailsIffBatchFails(activating: seq<seq<Example>>, incorrect: seq<Example>, explanation: string,
                                decode: seq<int> -> string, batchSize: int, backend: Request -> Response)
    requires batchSize > 0
    ensures var batches := Chunk(Assemble(activating, incorrect, decode), batchSize);
      Score(activating, incorrect, explanation, decode, batchSize, backend).Failure?
      <==> exists j :: 0 <= j < |batches| && Query(batches[j], explanation, backend).Failure?
  {
    var batches := Chunk(Assemble(activating, incorrect, decode), batchSize);
    assert PrepareBatches(activating, incorrect, decode, batchSize) == Success(batches);
    assert Score(activating, incorrect, explanation, decode, batchSize, backend)
        == ProcessBatches(batches, explanation, backend);
  }

  /** With no examples at all there are no batches, hence no backend call,
      and the result is empty, whatever the backend would answer. */
  lemma EmptyInputScoresNothing(activating: seq<seq<Example>>, incorrect: seq<Example>, explanation: string,
                                decode: seq<int> -> string, batchSize: int, backend: Request -> Response)
    requires |incorrect| + |Flatten(activating)| == 0 && batchSize != 0
    ensures PrepareBatches(activating, incorrect, decode, batchSize) == Success([])
    ensures Score(activating, incorrect, explanation, decode, batchSize, backend) == Success([])
  {
  }

  /** A list no longer than the batch size is cut into one batch. */
  lemma ChunkOneBatch<T>(s: seq<T>, n: nat)
    requires 1 <= |s| <= n
    ensures Chunk(s, n) == [s]
  {
    assert ChunkFrom(s, n, n) == [];
    assert Slice(s, 0, n) == s;
  }

  /** Processing one batch is one `query` of it. */
  lemma ProcessOneBatch(batch: seq<Sample>, explanation: string, backend: Request -> Response)
    ensures var q := Query(batch, explanation, backend);
      ProcessBatches([batch], explanation, backend)
      == if q.Success? then Success(Defaults(q.value)) else Failure(q.error)
  {
    var q := Query(batch, explanation, backend);
    var g := QueryAll([batch], explanation, backend);
    if q.Success? {
      assert g.Success? && |g.value| == 1 && g.value[0] == q.value;
      assert g.value == [q.value];
      assert Flatten([q.value]) == q.value by { assert [q.value][..0] == []; }
    } else {
      assert g.Failure? && g.error == q.error;
    }
  }

  /** When every sample fits in one batch, scoring is one `query` of the
      whole assembled list. */
  lemma ScoreSingleBatch(activating: seq<seq<Example>>, incorrect: seq<Example>, explanation: string,
                         decode: seq<int> -> string, batchSize: int, backend: Request -> Response)
    requires 1 <= |incorrect| + |Flatten(activating)| <= batchSize
    ensures var q := Query(Assemble(activating, incorrect, decode), explanation, backend);
      Score(activating, incorrect, explanation, decode, batchSize, backend)
      == if q.Success? then Success(Defaults(q.value)) else Failure(q.error)
  {
    var samples := Assemble(activating, incorrect, decode);
    ChunkOneBatch(samples, batchSize);
    assert PrepareBatches(activating, incorrect, decode, batchSize) == Success([samples]);
    assert Score(activating, incorrect, explanation, decode, batchSize, backend)
        == ProcessBatches([samples], explanation, backend);
    ProcessOneBatch(samples, explanation, backend);
  }

  /** One activating example and nothing else assembles into one sample of quantile 1. */
  lemma AssembleOne(e: Example, decode: seq<int> -> string)
    ensures |Flatten([[e]])| == 1
    ensures Assemble([[e]], [], decode) == [Sample(decode(e.tokens), 1, true, None)]
  {
    assert Flatten([[e]]) == [e] by { assert [[e]][..0] == []; }
  }

  /** A free text answer ending in `1` judges a lone sample true. */
  lemma JudgeOne(s: Sample, explanation: string, body: string)
    requires |body| > 0 && body[|body| - 1] == '1'
    ensures Query([s], explanation, (req: Request) => Text(body)) == Success([s.(predicted := Some(true))])
  {
  }

  /** Single-sample mode: one activating example, batch size one, and a free
      text answer ending in `1` is scored as predicted true. */
  lemma SingleSampleScenario(e: Example, explanation: string, decode: seq<int> -> string, body: string)
    requires |body| > 0 && body[|body| - 1] == '1'
    ensures Score([[e]], [], explanation, decode, 1, (req: Request) => Text(body))
         == Success([Default(Sample(decode(e.tokens), 1, true, Some(true)))])
  {
    var s := Sample(decode(e.tokens), 1, true, None);
    AssembleOne(e, decode);
    ScoreSingleBatch([[e]], [], explanation, decode, 1, (req: Request) => Text(body));
    JudgeOne(s, explanation, body);
    var judged := [s.(predicted := Some(true))];
    assert Defaults(judged) == [Default(judged[0])] by { assert judged[..0] == []; }
  }

  /** The three keys of a batch of three, spelled out. */
  lemma KeysOfThree()
    ensures ExampleKey(0) == "example_0"
    ensures ExampleKey(1) == "example_1"
    ensures ExampleKey(2) == "example_2"
  {
  }

  /** The batched answer of the scenario below, on any batch of three. */
  lemma JudgeThree(batch: seq<Sample>, explanation: string)
    requires |batch| == 3
    ensures var q := Query(batch, explanation,
                           (req: Request) => Structured(map["example_0" := 0, "example_1" := 1, "example_2" := 1]));
      && q.Success? && |q.value| == 3
      && q.value[0].predicted == Some(false)
      && q.value[1].predicted == Some(true)
      && q.value[2].predicted == Some(true)
  {
    var fields := map["example_0" := 0, "example_1" := 1, "example_2" := 1];
    var backend := (req: Request) => Structured(fields);
    KeysOfThree();
    assert forall k :: 0 <= k < |batch| ==> ExampleKey(k) in fields by {
      forall k | 0 <= k < |batch|
        ensures ExampleKey(k) in fields
      {
        if k == 0 {
        } else if k == 1 {
        } else {
          assert k == 2;
        }
      }
    }
    var r := ParseStructured(batch, fields);
    assert r.Success?;
    assert Query(batch, explanation, backend) == r;
  }

  /** The failing answer of the scenario below, on any batch of three. */
  lemma JudgeThreeMissing(batch: seq<Sample>, explanation: string)
    requires |batch| == 3
    ensures Query(batch, explanation, (req: Request) => Structured(map["example_0" := 0, "example_2" := 1]))
         == Failure(MissingKey("example_1"))
  {
    var fields := map["example_0" := 0, "example_2" := 1];
    var backend := (req: Request) => Structured(fields);
    KeysOfThree();
    var r := ParseStructured(batch, fields);
    assert ExampleKey(1) !in fields;
    assert r.Failure?;
    var k :| 0 <= k < |batch| && r.error == MissingKey(ExampleKey(k)) && ExampleKey(k) !in fields
      && (forall m :: 0 <= m < k ==> ExampleKey(m) in fields);
    assert k == 1;
    assert Query(batch, explanation, backend) == r;
  }

  /** Batched mode: a batch of three judged `{example_0: 0, example_1: 1,
      example_2: 1}` is scored false, true, true in sample order. */
  lemma BatchedScenario(activating: seq<seq<Example>>, incorrect: seq<Example>, explanation: string,
                        decode: seq<int> -> string)
    requires |incorrect| + |Flatten(activating)| == 3
    ensures var r := Score(activating, incorrect, explanation, decode, 3,
                           (req: Request) => Structured(map["example_0" := 0, "example_1" := 1, "example_2" := 1]));
      && r.Success? && |r.value| == 3
      && FromRecord(r.value[0]).value.predicted == Some(false)
      && FromRecord(r.value[1]).value.predicted == Some(true)
      && FromRecord(r.value[2]).value.predicted == Some(true)
  {
    var backend := (req: Request) => Structured(map["example_0" := 0, "example_1" := 1, "example_2" := 1]);
    ScoreSingleBatch(activating, incorrect, explanation, decode, 3, backend);
    JudgeThree(Assemble(activating, incorrect, decode), explanation);
  }

  /** A structured answer that omits `example_1` fails the scoring call with
      that key; no prediction is defaulted. */
  lemma MissingKeyScenario(activating: seq<seq<Example>>, incorrect: seq<Example>, explanation: string,
                           decode: seq<int> -> string)
    requires |incorrect| + |Flatten(activating)| == 3
    ensures Score(activating, incorrect, explanation, decode, 3,
                  (req: Request) => Structured(map["example_0" := 0, "example_2" := 1]))
         == Failure(MissingKey("example_1"))
  {
    var backend := (req: Request) => Structured(map["example_0" := 0, "example_2" := 1]);
    ScoreSingleBatch(activating, incorrect, explanation, decode, 3, backend);
    JudgeThreeMissing(Assemble(activating, incorrect, decode), explanation);
  }
}

=== FILE: seqs.dfy ===
/** Sequences of sequences: flattening and its inverse. */
module Seqs {

  /** Concatenation of the parts in order, the way a repeated `extend`
      or a nested list comprehension concatenates them. */
  function Flatten<T>(ss: seq<seq<T>>): (r: seq<T>)
    ensures |r| == TotalLength(ss)
  {
    if |ss| == 0 then [] else Flatten(ss[..|ss| - 1]) + ss[|ss| - 1]
  }

  /** The number of elements over all parts. */
  function TotalLength<T>(ss: seq<seq<T>>): nat
  {
    if |ss| == 0 then 0 else TotalLength(ss[..|ss| - 1]) + |ss[|ss| - 1]|
  }

  lemma {:induction false} FlattenAppend<T>(a: seq<seq<T>>, b: seq<seq<T>>)
    ensures Flatten(a + b) == Flatten(a) + Flatten(b)
    decreases |b|
  {
    if |b| == 0 {
      assert a + b == a;
    } else {
      var b' := b[..|b| - 1];
      assert (a + b)[..|a + b| - 1] == a + b';
      FlattenAppend(a, b');
    }
  }

  /** Prepending one part prepends its elements. */
  lemma FlattenCons<T>(c: seq<T>, rest: seq<seq<T>>)
    ensures Flatten([c] + rest) == c + Flatten(rest)
  {
    FlattenAppend([c], rest);
    assert [c][..0] == [];
  }

  /** The flattening of a list with a known first part and a known
      flattening of the rest. */
  lemma FlattenHeadRest<T>(all: seq<seq<T>>, head: seq<T>, rest: seq<seq<T>>, tail: seq<T>)
    requires all == [head] + rest && Flatten(rest) == tail
    ensures Flatten(all) == head + tail
  {
    FlattenCons(head, rest);
  }

  /** Element `p` of part `j` sits in the flattened sequence right after
      the elements of the parts before it. */
  lemma FlattenIndex<T>(ss: seq<seq<T>>, j: nat, p: nat)
    requires j < |ss| && p < |ss[j]|
    ensures |Flatten(ss[..j])| + p < |Flatten(ss)|
    ensures Flatten(ss)[|Flatten(ss[..j])| + p] == ss[j][p]
  {
    assert ss == ss[..j + 1] + ss[j + 1..];
    FlattenAppend(ss[..j + 1], ss[j + 1..]);
    assert ss[..j + 1][..j] == ss[..j];
  }

  /** Two sequences of parts with the same part lengths and the same
      concatenation are equal: flattening loses nothing but the boundaries. */
  lemma {:induction false} FlattenInjectiveOnShape<T>(a: seq<seq<T>>, b: seq<seq<T>>)
    requires |a| == |b|
    requires forall j :: 0 <= j < |a| ==> |a[j]| == |b[j]|
    requires Flatten(a) == Flatten(b)
    ensures a == b
    decreases |a|
  {
    if |a| > 0 {
      var n := |a| - 1;
      var fa, fb := Flatten(a[..n]), Flatten(b[..n]);
      assert Flatten(a) == fa + a[n];
      assert Flatten(b) == fb + b[n];
      assert |fa| == |fb|;
      assert fa == Flatten(a)[..|fa|];
      assert fb == Flatten(b)[..|fb|];
      assert a[n] == Flatten(a)[|fa|..];
      assert b[n] == Flatten(b)[|fb|..];
      FlattenInjectiveOnShape(a[..n], b[..n]);
      assert a == a[..n] + [a[n]];
      assert b == b[..n] + [b[n]];
    }
  }

  /** Cuts `xs` into consecutive parts whose lengths are those of `shape`. */
  function Regroup<T, U>(xs: seq<T>, shape: seq<seq<U>>): (r: seq<seq<T>>)
    requires |xs| == |Flatten(shape)|
    ensures |r| == |shape|
    ensures forall j :: 0 <= j < |r| ==> |r[j]| == |shape[j]|
    ensures Flatten(r) == xs
    decreases |shape|
  {
    if |shape| == 0 then []
    else
      var k := |xs| - |shape[|shape| - 1]|;
      var front := Regroup(xs[..k], shape[..|shape| - 1]);
      assert (front + [xs[k..]])[..|front|] == front;
      front + [xs[k..]]
  }

  /** Regrouping a flattened sequence along its own shape (or any shape
      with the same part lengths) gives the parts back. */
  lemma RegroupFlatten<T, U>(ss: seq<seq<T>>, shape: seq<seq<U>>)
    requires |ss| == |shape|
    requires forall j :: 0 <= j < |ss| ==> |ss[j]| == |shape[j]|
    ensures |Flatten(ss)| == |Flatten(shape)| && Regroup(Flatten(ss), shape) == ss
  {
    FlattenLengthByShape(ss, shape);
    FlattenInjectiveOnShape(Regroup(Flatten(ss), shape), ss);
  }

  /** Flattened length is the sum of the part lengths, so it only depends on them. */
  lemma {:induction false} FlattenLengthByShape<T, U>(a: seq<seq<T>>, b: seq<seq<U>>)
    requires |a| == |b|
    requires forall j :: 0 <= j < |a| ==> |a[j]| == |b[j]|
    ensures |Flatten(a)| == |Flatten(b)|
    decreases |a|
  {
    if |a| > 0 {
      FlattenLengthByShape(a[..|a| - 1], b[..|b| - 1]);
    }
  }
}

=== FILE: wrappers.dfy ===
/** Failure-carrying datatypes used throughout the model. */
module Wrappers {

  /** An optional value; `None` plays the part of Python's `None`. */
  datatype Option<+T> = None | Some(value: T)

  /** The outcome of an operation that may raise: a value, or the error it
      raised. A failure propagates through `:-` as an exception does. */
  datatype Result<+R, +E> = Success(value: R) | Failure(error: E) {
    predicate IsFailure() {
      Failure?
    }

    /** The same error, as a result of another value type. */
    function PropagateFailure<U>(): Result<U, E>
      requires Failure?
    {
      Failure(this.error)
    }

    function Extract(): R
      requires Success?
    {
      value
    }
  }
}
